=== FILE: README.md ===
# Sweet shop core, modelled in Dafny

A model of the logic at the centre of a small sweet-shop storefront: a
catalog of sweets with a price and a stock, a purchase log, and user
profiles with a role. The storefront has two halves that both talk to a
hosted database:

- the **browser side** filters the fetched catalog in memory (name
  substring, category, price bounds), lists the categories, and lets a
  user buy from an item card; admins restock and delete from the same card;
- the **backend** exposes search, create, update, delete, purchase and
  restock endpoints, each guarded by a current-user dependency and, for
  the catalog-changing ones, an admin gate.

The database is the `Store`: a map from sweet id to sweet, plus the
purchase log. Every call to the database is one sequential step that may
take effect, come back empty, or raise (`Client.Fault`). A handler draws
the faults of its calls, in order, from a script `net`, and returns the
calls it issued, so the step order of the two purchase variants and "no
call was issued" can be stated. Prices are exact `real`s.

The headline invariant is `Sweets.Valid`: every sweet meets the
constraints of a new sweet, in particular `quantity >= 0`. Create,
purchase, restock and delete keep it. Update does not: its request model
puts no bound on the stock. The model writes the negative stock, and
then the response-model check turns the reply into a 500. From then on
every search that lists the row also fails
(`BackendProperties.UpdateBreaksStockInvariant`).

Modules: `Wrappers` (Option, Result), `Text` (lower-casing, `includes`,
`ilike`), `Seqs` (order-preserving filter, first-occurrence dedup),
`Sweets` (data model, errors), `Client` (database calls), `Validation`
(request models), `Auth` (caller resolution), `Catalog` (dashboard filter,
category list, backend search), `Backend` (endpoints), `Card` (item card),
plus `CatalogExamples`, `BackendProperties` and `PurchaseFlows`, which
hold lemmas about several calls.

Behaviours of the code that the model keeps as written:

- The card alerts only when the user lookup returns no user or the
  record insert reports an error. It never looks at
  the outcome of its stock write: a failed write still closes the
  dialog, and the purchase stays recorded
  (`Card.PurchaseIgnoresFailedStockWrite`).
- The backend purchase does not check its stock write either
  (`BackendProperties.PurchaseIgnoresStockWrite`).
- The backend's compensating restore runs only when the record insert
  returns no row. When the insert raises, the stock stays lowered with
  no record (`BackendProperties.PurchaseInsertRaisesKeepsDecrement`).
- The backend's lookups are written as `maybeSingle()`. If the client
  library has no method of that name, every lookup raises. The model
  covers that case as the `Raises` fault: a 401 for the current user and
  a 500 for purchase and restock.

## Model

| member | source | states |
|---|---|---|
| Text.IncludesIff | project/src/components/Dashboard.tsx:53-57 | The browser's `includes` test holds exactly when the term occurs at some position of the name; the empty term occurs everywhere. |
| Text.ILikeIsCaseInsensitiveIncludes | project/backend/app/routers/sweets.py:42-43 | The database's `ilike` against `%term%` holds exactly when the lower-cased name includes the lower-cased term, provided the term has no pattern characters. |
| Text.UnderscoreMatchesAnyNonEmpty | project/backend/app/routers/sweets.py:42-43 | The term is spliced into the pattern unescaped, so the name search `_` matches every non-empty name. |
| Text.UnderscoreTermDiverges | project/backend/app/routers/sweets.py:42-43 | For every non-empty name without an underscore, the name search `_` matches it while the browser's `includes` test rejects it. |
| Seqs.Distinct | project/src/components/Dashboard.tsx:23 | Building a set from a list and reading it back yields each element once, and exactly the elements of the list. |
| Seqs.DistinctIsSubsequence | project/src/components/Dashboard.tsx:23 | The deduplicated list is a subsequence of the input. |
| Seqs.DistinctFirstAppearance | project/src/components/Dashboard.tsx:23 | The deduplicated list is in order of first appearance: of any two entries, the earlier one occurs in the input before any occurrence of the later one. |
| Catalog.FilterSweets | project/src/components/Dashboard.tsx:50-72 | The four successive passes (name, category, minimum, maximum), each applied only when its input is set, equal one pass with the conjunction of the set criteria. |
| Catalog.FilterMembership | project/src/components/Dashboard.tsx:53-69 | A sweet is shown iff it is in the fetched list and meets every set criterion: case-insensitive name substring, exact category, inclusive price bounds. |
| Catalog.FilterSound | project/src/components/Dashboard.tsx:53-69 | Every shown sweet meets every set criterion. |
| Catalog.FilterKeepsOrder | project/src/components/Dashboard.tsx:51-69 | The shown list is a subsequence of the fetched list; nothing is re-sorted. |
| Catalog.FilterIdempotent | project/src/components/Dashboard.tsx:50-72 | Filtering the shown list again with the same inputs gives the same list. |
| Catalog.FilterWithoutCriteria | project/src/components/Dashboard.tsx:51-71 | With every input empty the fetched list is shown unchanged. |
| Catalog.Categories | project/src/components/Dashboard.tsx:23 | The category options have no duplicates, each is the category of some sweet, every sweet's category is among them, and they are ordered by first appearance in the list of sweets (the earlier option's category occurs before any sweet of the later one). |
| Catalog.SearchRows | project/backend/app/routers/sweets.py:40-54 | The search's rows are a subsequence of the table listing, each meets the parameters, and every listed row that meets them is returned. |
| Catalog.SearchMembership | project/backend/app/routers/sweets.py:40-55 | A row is returned by the search iff it is in the table and meets every parameter that was sent; the table's order is kept. |
| Catalog.ZeroBoundIsActive | project/backend/app/routers/sweets.py:48-52 | A price bound of zero is applied rather than skipped (a priced sweet is outside a maximum of 0, a free or priced one inside a minimum of 0), and both bounds are inclusive: a sweet lies within bounds equal to its price. |
| Catalog.SearchAgreesWithDashboard | project/backend/app/routers/sweets.py:42-52 | For a name term without pattern characters, the backend search returns exactly what the dashboard filter shows for the same inputs, in the same order. |
| CatalogExamples.SearchExample | project/src/components/Dashboard.tsx:53-57 | Searching "gummy" over "Gummy Bear" and "Choco Bar" shows only "Gummy Bear". |
| CatalogExamples.PriceRangeExample | project/src/components/Dashboard.tsx:63-69 | Bounds 1 and 3 over prices 0.5, 2 and 4 show only the item priced 2. |
| Sweets.ApplyPatchFields | project/backend/app/routers/sweets.py:99-110 | An update writes exactly the fields that were sent and leaves every other field as it was; an empty update changes nothing. |
| Sweets.QuantityPatchValid | project/backend/app/models.py:37 | Writing only the stock keeps a sweet valid exactly when the new stock is not negative. |
| Validation.ValidateRegistration | project/backend/app/models.py:7-10 | A registration is accepted iff the password has at least six characters; email and password pass through, and the full name is the one sent, or empty when none is sent; otherwise 422. |
| Validation.ShortPasswordRejected | project/backend/tests/test_auth.py:31-38 | The password "123" is refused with 422. |
| Validation.ValidateSweetCreate | project/backend/app/models.py:32-38 | A new sweet is accepted iff name and category are non-empty and price and stock are present and not negative; description and image URL default to empty; the accepted sweet is valid; otherwise 422. |
| Validation.ValidateQuantity | project/backend/app/models.py:60-65 | A purchase or restock quantity is accepted iff it is positive; otherwise 422. |
| Validation.UpdateAdmitsNegativeStock | project/backend/app/models.py:45-51 | The update model accepts a stock of -1, which makes any sweet invalid. |
| Auth.LookupProfile | project/backend/app/auth.py:16-31 | Before the catch-all, the lookup yields the profile iff the token names a user and the profile select finds it; no user is 401; a profile select that returns nothing is 404; any client exception stays an exception. |
| Auth.CurrentUser | project/backend/app/auth.py:9-37 | The caller resolves iff the token names a user whose profile is found, and then to that profile; every failure, whatever its cause, is a 401. |
| Auth.MissingProfileSurfacesAs401 | project/backend/app/auth.py:25-37 | A missing profile raises 404 inside the lookup, but the catch-all turns it into 401. |
| Auth.AdminGate | project/backend/app/auth.py:40-46 | Only the role "admin" passes, and the user is passed on unchanged; any other or missing role is 403 "Not enough permissions". |
| Auth.RequireAdmin | project/backend/app/auth.py:40-46 | The admin dependency runs after the current-user dependency: a 401 from that one comes first, then the 403. |
| Backend.Listing | project/backend/app/routers/sweets.py:54 | The listing in a given order of ids holds only rows of the table, holds every row whose id the order names, and passes the response check whenever the table is valid. |
| Backend.SearchSweets | project/backend/app/routers/sweets.py:30-60 | Search never writes; a failed caller gets its error with no call; every returned row is in the table, meets the parameters and passes the response check; on a valid store with the select succeeding it returns exactly the matching rows of the listing `order`, and, when `order` lists every id of the table, every matching row of the table is returned. |
| Backend.CreateSweet | project/backend/app/routers/sweets.py:63-88 | Create succeeds iff the caller is an admin, the body validates, the generated id is fresh and the insert takes effect; the created sweet is the validated body, is valid, and is stored under that id with nothing else changed; an admin's invalid body is 422 before any call; any failure changes nothing; non-admins are refused before any call. |
| Backend.UpdateSweet | project/backend/app/routers/sweets.py:91-125 | Either nothing changes or exactly the matched sweet gets the sent fields; a success means that row was written, and a 404 means nothing was; an admin's non-empty update of an existing id that takes effect writes the sent fields and answers the updated row (500 if it fails the response check); an empty update is 400 before any call; an id that matches nothing is 404 (or 500 on a raise). |
| Backend.DeleteSweet | project/backend/app/routers/sweets.py:128-150 | Delete succeeds iff an admin deletes an existing id and the call takes effect, and then removes exactly that sweet; a missing id is 404 (or 500). |
| Backend.PurchaseSweet | project/backend/app/routers/sweets.py:153-205 | Purchase keeps every sweet valid and never adds or removes sweets. A success needs 1 <= quantity <= stock, appends a record priced at price times quantity for the caller, and lowers the stock by the quantity when that write takes effect. A failure records nothing. |
| Backend.RestockSweet | project/backend/app/routers/sweets.py:208-242 | Restock keeps every sweet valid and only ever raises one existing sweet's stock by a positive quantity. An admin's restock of an existing sweet with both calls taking effect writes the looked-up stock plus the quantity and answers that row (500 if it fails the response check). A quantity below 1 is 422 before any call; a success returns the written row; non-admins are refused before any call. |
| BackendProperties.NonAdminCannotMutate | project/backend/tests/test_sweets.py:24-29 | A signed-in non-admin gets 403 from create, update, delete and restock, with no call issued and nothing changed. |
| BackendProperties.PurchaseMissingSweet | project/backend/app/routers/sweets.py:161-167 | Buying a sweet that does not exist is 404 after the lookup alone, with nothing changed. |
| BackendProperties.PurchaseNotEnoughStock | project/backend/app/routers/sweets.py:171-175 | Asking for more than the stock is 400 naming the available stock, with nothing changed. |
| BackendProperties.PurchaseSucceeds | project/backend/app/routers/sweets.py:177-198 | With every call taking effect, a purchase within the stock lowers it by the quantity, records price times quantity, and issues lookup, stock write, record insert in that order. |
| BackendProperties.PurchaseWholeStock | project/backend/app/routers/sweets.py:171-180 | Buying exactly the remaining stock succeeds and leaves 0. |
| BackendProperties.PurchaseExample | project/backend/app/routers/sweets.py:177-180 | Three units of a sweet priced 2.50 with five in stock cost 7.50 and leave 2. |
| BackendProperties.PurchaseInsertEmptyRestores | project/backend/app/routers/sweets.py:191-196 | When the record insert returns no row, the old stock is written back: 500, and the store is exactly as before. |
| BackendProperties.PurchaseInsertRaisesKeepsDecrement | project/backend/app/routers/sweets.py:189-205 | When the record insert raises, the restore is skipped: 500, no record, and the stock stays lowered. |
| BackendProperties.PurchaseIgnoresStockWrite | project/backend/app/routers/sweets.py:179-180 | The stock write's result is not checked: if it has no effect, the purchase is still recorded and reported as a success. |
| BackendProperties.RestockAddsStock | project/backend/app/routers/sweets.py:216-227 | An admin restock raises any existing sweet's stock by the quantity, whether or not the row was valid; a missing sweet is 404 after the lookup alone. |
| BackendProperties.MissingIdIsNotFound | project/backend/app/routers/sweets.py:110-141 | Updating or deleting an id that matches no row is 404 and changes nothing. |
| BackendProperties.UpdateBreaksStockInvariant | project/backend/app/models.py:50 | From a valid store, an admin update to stock -1 is written, leaves the store invalid, answers 500, and makes a later search listing that row answer 500. |
| Card.HandlePurchase | project/src/components/SweetCard.tsx:20-49 | The card's purchase is a no-op without calls when the quantity is below 1 or above the shown stock. Past the guard it alerts iff the user lookup returns no user or the record insert raises, and then issues no stock write and changes nothing. Otherwise it returns the card to its initial quantity with the dialog closed. The purchase log gains price times quantity when the insert takes effect and is unchanged otherwise. The bought row is set to the shown stock less the quantity (never negative) when that write takes effect and is unchanged otherwise. No other sweet ever changes. |
| Card.HandleRestock | project/src/components/SweetCard.tsx:51-68 | A restock quantity below 1 is a no-op without calls. Past the guard it alerts iff the write raises. A write that takes effect on an existing sweet sets its stock to the shown stock plus the quantity and changes nothing else; any other outcome changes nothing; a refetch returns the input to its initial 10. |
| Card.HandleDelete | project/src/components/SweetCard.tsx:70-80 | Without confirmation nothing happens. A confirmed delete alerts iff the call raises. A delete that takes effect removes exactly that sweet; any other outcome changes nothing. |
| Card.Controls | project/src/components/SweetCard.tsx:131-151 | Every card shows Purchase; restock, edit and delete appear iff the viewer is an admin. |
| Card.ConfirmMatchesGuard | project/src/components/SweetCard.tsx:191 | The confirm button is enabled iff no purchase is running and the handler's guard passes, so an enabled button never leads to a no-op; the restock confirm button matches its handler's guard. |
| Card.PurchaseButtonMatchesStock | project/src/components/SweetCard.tsx:124 | With a non-negative stock the Purchase button is enabled iff one unit can be bought; a negative stock enables it although no quantity passes. |
| Card.PurchaseIgnoresFailedStockWrite | project/src/components/SweetCard.tsx:36-39 | After the record is accepted, a failed stock write goes unnoticed: the dialog closes, the purchase is recorded and the stock is unchanged. |
| PurchaseFlows.SameStoreOppositeOrder | project/backend/app/routers/sweets.py:177-189 | Without failures and with a card showing the current row, the card and the backend reach the same store, writing record then stock and stock then record respectively. |
| PurchaseFlows.InsertFailureDiverges | project/src/components/SweetCard.tsx:25-34 | When the record insert raises, the card leaves the store alone, while the backend has already lowered the stock and keeps it lowered. |

## Left out

- HTTP routing, CORS, token issuance, registration and login handlers (they only map exception text from the identity service), and the database client itself: I/O and foreign calls. Each database call is a `Client` step with an injected fault instead.
- `get_all_sweets`: it is the search with no parameters, apart from its error text.
- The database's ordering by creation time: `Backend.Listing` takes the order of ids as a parameter.
- Row-level security and the table schema (CHECK, NOT NULL and foreign-key constraints): not visible in the code. The model's tables accept any row, except that a clash of primary keys raises. A rule that silently hides a row is the `Empty` fault.
- Missing or malformed bearer headers: the framework's security helper handles them before `get_current_user` runs.
- Email syntax (`EmailStr`) and pydantic's type coercion of request fields: library behaviour. `Validation.ValidateRegistration` checks only the password length and the full-name default.
- Explicit `null` fields in an update body: they count as sent. An explicit null price fails the float conversion and is a 500 before any backend call; any other explicit null is written as null. The model's `Patch` has only "absent" and "a value".
- Success status codes (200, 201, 204) and the text of error details, apart from the stock figure in "Not enough stock".
- Floating-point prices and totals and `toFixed(2)` display: prices are exact reals.
- `parseFloat` of the price-bound inputs (an unparsable bound gives NaN) and `Number(...)` of the card's quantity inputs (fractions, NaN). Bounds are `Option<real>` and quantities are integers.
- Unicode case mapping: `Text.LowerChar` lower-cases ASCII letters only. JavaScript's `toLowerCase` and the database's case folding handle all of Unicode.
- The backslash escape of `ilike` patterns: `Text.LikeMatch` treats it as a literal. The agreement lemma excludes terms that contain it.
- Concurrency: stale reads between purchasers and double-clicks. Runs are sequential. The card's `sweet` parameter is the row the card was rendered from, and it may be stale.
- The session context that derives `isAdmin` and the loading state is not part of this model: `Card.Controls` takes `isAdmin` as input. The item creation form, header, app shell and filter-bar rendering (including label capitalisation) are UI only.
- Card.HandleRestock: keeps every sweet valid only when the stock the card shows is not negative, because the handler writes the shown stock plus the quantity without reading the current row.
- Backend.SearchSweets: its exact-result and completeness clauses assume the table is valid and the select takes effect. Completeness also assumes the listing `order` names every id, because the database's creation-time ordering is a parameter. Otherwise the contract states only soundness of the returned rows.

=== FILE: auth.dfy ===
/**
 * Resolving the caller of a backend request: the token lookup, the
 * profile lookup, and the admin gate.
 */
module Auth {
  import opened Wrappers
  import opened Sweets
  import opened Client

  /** What the token lookup returns. */
  datatype TokenLookup =
    | LookupRaises      // the client raised, e.g. on an expired token
    | NoUser            // the lookup returned no user
    | SignedIn(id: Id)

  /** How the body of the lookup ended: with an HTTP error of its own, or with a client exception. */
  datatype Abort = Http(error: Error) | ClientException

  /** The lookup before the catch-all handler: 401 for no user, 404 for a missing profile. */
  function LookupProfile(token: TokenLookup, profiles: map<Id, User>, profileFault: Fault): (r: Result<User, Abort>)
    ensures r.Success? <==> token.SignedIn? && profileFault == Applied && token.id in profiles
    ensures r.Success? ==> r.value == profiles[token.id]
    ensures token.NoUser? ==> r == Failure(Http(Unauthorized))
    ensures token.LookupRaises? || (token.SignedIn? && profileFault == Raises) ==> r == Failure(ClientException)
    ensures token.SignedIn? && profileFault != Raises && r.Failure? ==> r == Failure(Http(ProfileNotFound))
  {
    match token
    case LookupRaises => Failure(ClientException)
    case NoUser => Failure(Http(Unauthorized))
    case SignedIn(id) =>
      match profileFault
      case Raises => Failure(ClientException)
      case Empty => Failure(Http(ProfileNotFound))
      case Applied => if id in profiles then Success(profiles[id]) else Failure(Http(ProfileNotFound))
  }

  /**
   * The current user. The catch-all handler turns every failure of the
   * lookup, whatever it was, into 401.
   */
  function CurrentUser(token: TokenLookup, profiles: map<Id, User>, profileFault: Fault): (r: Result<User, Error>)
    ensures r.Success? <==> token.SignedIn? && profileFault == Applied && token.id in profiles
    ensures r.Success? ==> r.value == profiles[token.id]
    ensures r.Failure? ==> r.error == Unauthorized
  {
    match LookupProfile(token, profiles, profileFault)
    case Success(u) => Success(u)
    case Failure(_) => Failure(Unauthorized)
  }

  /** The missing profile is a 404 inside the lookup, but the caller sees 401. */
  lemma MissingProfileSurfacesAs401(id: Id, profiles: map<Id, User>)
    requires id !in profiles
    ensures LookupProfile(SignedIn(id), profiles, Applied) == Failure(Http(ProfileNotFound))
    ensures CurrentUser(SignedIn(id), profiles, Applied).Failure?
    ensures CurrentUser(SignedIn(id), profiles, Applied).error.Status() == 401
  {
  }

  /** The admin gate: only the role "admin" passes, and it passes the user through unchanged. */
  function AdminGate(u: User): (r: Result<User, Error>)
    ensures r.Success? <==> u.role == Some("admin")
    ensures r.Success? ==> r.value == u
    ensures r.Failure? ==> r.error == Forbidden && r.error.Status() == 403
  {
    if u.role != Some("admin") then Failure(Forbidden) else Success(u)
  }

  /** The admin dependency chained after the current-user dependency: 401 first, then 403. */
  function RequireAdmin(caller: Result<User, Error>): (r: Result<User, Error>)
    ensures r.Success? <==> caller.Success? && caller.value.role == Some("admin")
    ensures r.Success? ==> r.value == caller.value
    ensures caller.Failure? ==> r == caller
    ensures caller.Success? && r.Failure? ==> r.error == Forbidden
  {
    match caller
    case Failure(e) => Failure(e)
    case Success(u) => AdminGate(u)
  }
}

=== FILE: backend.dfy ===
/**
 * The backend's sweets endpoints. Each handler first resolves its caller
 * (the current-user dependency, and the admin gate where the endpoint
 * demands it), then validates its body, then issues its backend calls one
 * after another, and finally checks a returned sweet against the response
 * model, which repeats the constraints of a new sweet.
 */
module Backend {
  import opened Wrappers
  import opened Sweets
  import opened Client
  import opened Auth
  import opened Validation
  import opened Catalog

  /** A handler's answer: the store after it, the response, and the backend calls it issued in order. */
  datatype Response<T> = Response(store: Store, result: Result<T, Error>, calls: seq<Call>)

  /** The response-model check on a returned sweet: a row that breaks the constraints becomes a 500. */
  function AsSweetResponse(row: Sweet): Result<Sweet, Error> {
    if ValidSweet(row) then Success(row) else Failure(ServerError)
  }

  /** All rows pass the response-model check. */
  predicate AllValid(rows: seq<Sweet>) {
    forall i :: 0 <= i < |rows| ==> ValidSweet(rows[i])
  }

  /** The sweets table listed in the given order of ids (the database lists newest first). */
  function Listing(st: Store, order: seq<Id>): (r: seq<Sweet>)
    ensures forall i :: 0 <= i < |r| ==> r[i] in st.sweets.Values
    ensures forall id :: id in order && id in st.sweets ==> st.sweets[id] in r
    ensures Valid(st) ==> AllValid(r)
  {
    if |order| == 0 then []
    else (if order[0] in st.sweets then [st.sweets[order[0]]] else []) + Listing(st, order[1..])
  }

  /** `GET /api/sweets/search`: any signed-in caller; one select with the parameters as its `where` clause. */
  function SearchSweets(st: Store, order: seq<Id>, caller: Result<User, Error>, p: SearchParams, net: seq<Fault>): (r: Response<seq<Sweet>>)
    ensures r.store == st
    ensures caller.Failure? ==> r == Response(st, Failure(caller.error), [])
    ensures r.result.Success? ==> forall i :: 0 <= i < |r.result.value| ==>
      SearchSelects(p, r.result.value[i]) && ValidSweet(r.result.value[i]) && r.result.value[i] in st.sweets.Values
    ensures Valid(st) && caller.Success? && FaultAt(net, 0) == Applied ==>
      r.result == Success(SearchRows(Listing(st, order), p))
    ensures Valid(st) && caller.Success? && FaultAt(net, 0) == Applied && (forall id :: id in st.sweets ==> id in order) ==>
      forall id :: id in st.sweets && SearchSelects(p, st.sweets[id]) ==> st.sweets[id] in r.result.value
  {
    if caller.Failure? then Response(st, Failure(caller.error), [])
    else
      var f := FaultAt(net, 0);
      if f == Raises then Response(st, Failure(ServerError), [SelectFiltered])
      else
        var rows := if f == Empty then [] else SearchRows(Listing(st, order), p);
        SearchRowsSound(Listing(st, order), p);
        SearchRowsComplete(Listing(st, order), p);
        Response(st, if AllValid(rows) then Success(rows) else Failure(ServerError), [SelectFiltered])
  }

  /** Every searched row is in the table listing and meets the parameters. */
  lemma SearchRowsSound(rows: seq<Sweet>, p: SearchParams)
    ensures forall i :: 0 <= i < |SearchRows(rows, p)| ==>
      SearchSelects(p, SearchRows(rows, p)[i]) && SearchRows(rows, p)[i] in rows
  {
    forall i | 0 <= i < |SearchRows(rows, p)|
      ensures SearchSelects(p, SearchRows(rows, p)[i]) && SearchRows(rows, p)[i] in rows
    {
      SearchMembership(rows, p, SearchRows(rows, p)[i]);
    }
  }

  /** Every listed row that meets the parameters is searched. */
  lemma SearchRowsComplete(rows: seq<Sweet>, p: SearchParams)
    ensures forall s :: s in rows && SearchSelects(p, s) ==> s in SearchRows(rows, p)
  {
    forall s | s in rows && SearchSelects(p, s)
      ensures s in SearchRows(rows, p)
    {
      SearchMembership(rows, p, s);
    }
  }

  /** `POST /api/sweets`: admins only; the validated sweet is inserted under the identifier the database generates. */
  function CreateSweet(st: Store, caller: Result<User, Error>, form: SweetForm, newId: Id, net: seq<Fault>): (r: Response<Sweet>)
    ensures Valid(st) ==> Valid(r.store)
    ensures r.result.Success? ==>
      && newId !in st.sweets
      && ValidSweet(r.result.value)
      && r.store == st.(sweets := st.sweets[newId := r.result.value])
      && ValidateSweetCreate(form) == Success(r.result.value)
    ensures r.result.Failure? ==> r.store == st
    ensures r.result.Success? <==>
      RequireAdmin(caller).Success? && ValidateSweetCreate(form).Success? && newId !in st.sweets && FaultAt(net, 0) == Applied
    ensures RequireAdmin(caller).Success? && ValidateSweetCreate(form).Failure? ==> r == Response(st, Failure(Unprocessable), [])
    ensures RequireAdmin(caller).Failure? ==> r == Response(st, Failure(RequireAdmin(caller).error), [])
  {
    match RequireAdmin(caller)
    case Failure(e) => Response(st, Failure(e), [])
    case Success(_) =>
      match ValidateSweetCreate(form)
      case Failure(e) => Response(st, Failure(e), [])
      case Success(sweet) =>
        var ins := InsertRow(st, newId, sweet, FaultAt(net, 0));
        var calls := [InsertSweetRow(newId, sweet)];
        match ins.reply
        case Raised => Response(ins.store, Failure(ServerError), calls)
        case Rows(None) => Response(ins.store, Failure(CreateFailed), calls)
        case Rows(Some(row)) => Response(ins.store, AsSweetResponse(row), calls)
  }

  /** `PUT /api/sweets/{id}`: admins only; the fields sent replace the sweet's own. */
  function UpdateSweet(st: Store, caller: Result<User, Error>, id: Id, patch: Patch, net: seq<Fault>): (r: Response<Sweet>)
    ensures r.store == st || (id in st.sweets && r.store == st.(sweets := st.sweets[id := ApplyPatch(st.sweets[id], patch)]))
    ensures RequireAdmin(caller).Success? && patch.IsEmpty() ==> r == Response(st, Failure(NoFieldsToUpdate), [])
    ensures RequireAdmin(caller).Success? && !patch.IsEmpty() && id !in st.sweets ==>
      r.store == st && (r.result == Failure(SweetNotFound) || r.result == Failure(ServerError))
    ensures r.result.Success? ==> id in st.sweets && r.result.value == ApplyPatch(st.sweets[id], patch) && ValidSweet(r.result.value)
    ensures r.result.Success? ==> r.store == st.(sweets := st.sweets[id := r.result.value])
    ensures r.result == Failure(SweetNotFound) ==> r.store == st
    ensures RequireAdmin(caller).Success? && !patch.IsEmpty() && id in st.sweets && FaultAt(net, 0) == Applied ==>
      && r.store == st.(sweets := st.sweets[id := ApplyPatch(st.sweets[id], patch)])
      && r.result == AsSweetResponse(ApplyPatch(st.sweets[id], patch))
    ensures RequireAdmin(caller).Failure? ==> r == Response(st, Failure(RequireAdmin(caller).error), [])
  {
    match RequireAdmin(caller)
    case Failure(e) => Response(st, Failure(e), [])
    case Success(_) =>
      match ValidateUpdate(patch)
      case Failure(e) => Response(st, Failure(e), [])
      case Success(patch) =>
        if patch.IsEmpty() then Response(st, Failure(NoFieldsToUpdate), [])
        else
          var upd := Update(st, id, patch, FaultAt(net, 0));
          var calls := [UpdateById(id, patch)];
          match upd.reply
          case Raised => Response(upd.store, Failure(ServerError), calls)
          case Rows(None) => Response(upd.store, Failure(SweetNotFound), calls)
          case Rows(Some(row)) => Response(upd.store, AsSweetResponse(row), calls)
  }

  /** `DELETE /api/sweets/{id}`: admins only; a missing sweet is a 404. */
  function DeleteSweet(st: Store, caller: Result<User, Error>, id: Id, net: seq<Fault>): (r: Response<()>)
    ensures Valid(st) ==> Valid(r.store)
    ensures r.result.Success? <==> RequireAdmin(caller).Success? && id in st.sweets && FaultAt(net, 0) == Applied
    ensures r.result.Success? ==> r.store == st.(sweets := st.sweets - {id})
    ensures r.result.Failure? ==> r.store == st
    ensures RequireAdmin(caller).Success? && id !in st.sweets ==>
      r.result == Failure(SweetNotFound) || r.result == Failure(ServerError)
    ensures RequireAdmin(caller).Failure? ==> r == Response(st, Failure(RequireAdmin(caller).error), [])
  {
    match RequireAdmin(caller)
    case Failure(e) => Response(st, Failure(e), [])
    case Success(_) =>
      var del := Delete(st, id, FaultAt(net, 0));
      var calls := [DeleteById(id)];
      match del.reply
      case Raised => Response(del.store, Failure(ServerError), calls)
      case Rows(None) => Response(del.store, Failure(SweetNotFound), calls)
      case Rows(Some(_)) => Response(del.store, Success(()), calls)
  }

  /**
   * `POST /api/sweets/{id}/purchase`: any signed-in caller. Look the sweet
   * up, check the stock, write the decremented stock, then insert the
   * purchase record; if the insert returns no row, write the old stock back.
   */
  function PurchaseSweet(st: Store, caller: Result<User, Error>, id: Id, quantity: int, net: seq<Fault>): (r: Response<Purchase>)
    ensures Valid(st) ==> Valid(r.store)
    ensures r.store.sweets.Keys == st.sweets.Keys
    ensures r.result.Success? ==>
      && caller.Success? && id in st.sweets
      && 1 <= quantity <= st.sweets[id].quantity
      && r.result.value == Purchase(caller.value.id, id, quantity, TotalPrice(st.sweets[id].price, quantity))
      && r.store.purchases == st.purchases + [r.result.value]
      && (if FaultAt(net, 1) == Applied
          then r.store.sweets == st.sweets[id := st.sweets[id].(quantity := st.sweets[id].quantity - quantity)]
          else r.store.sweets == st.sweets)
    ensures r.result.Failure? ==> r.store.purchases == st.purchases
  {
    if caller.Failure? then Response(st, Failure(caller.error), [])
    else
      match ValidateQuantity(quantity)
      case Failure(e) => Response(st, Failure(e), [])
      case Success(q) =>
        var lookup := Select(st, id, FaultAt(net, 0));
        var calls1 := [SelectById(id)];
        match lookup
        case Raised => Response(st, Failure(ServerError), calls1)
        case Rows(None) => Response(st, Failure(SweetNotFound), calls1)
        case Rows(Some(sweet)) =>
          if sweet.quantity < q then Response(st, Failure(NotEnoughStock(sweet.quantity)), calls1)
          else
            var total := TotalPrice(sweet.price, q);
            var dec := Update(st, id, QuantityPatch(sweet.quantity - q), FaultAt(net, 1));
            var calls2 := calls1 + [UpdateById(id, QuantityPatch(sweet.quantity - q))];
            if dec.reply.Raised? then Response(dec.store, Failure(ServerError), calls2)
            else
              var record := Purchase(caller.value.id, id, q, total);
              var ins := Record(dec.store, record, FaultAt(net, 2));
              var calls3 := calls2 + [InsertPurchaseRow(record)];
              match ins.reply
              case Raised => Response(ins.store, Failure(ServerError), calls3)
              case Rows(None) =>
                var restore := Update(ins.store, id, QuantityPatch(sweet.quantity), FaultAt(net, 3));
                Response(restore.store, Failure(ServerError), calls3 + [UpdateById(id, QuantityPatch(sweet.quantity))])
              case Rows(Some(p)) => Response(ins.store, Success(p), calls3)
  }

  /** `POST /api/sweets/{id}/restock`: admins only. Look the sweet up, then write the increased stock. */
  function RestockSweet(st: Store, caller: Result<User, Error>, id: Id, quantity: int, net: seq<Fault>): (r: Response<Sweet>)
    ensures Valid(st) ==> Valid(r.store)
    ensures r.store.purchases == st.purchases && r.store.sweets.Keys == st.sweets.Keys
    ensures r.store == st || (id in st.sweets && quantity >= 1 &&
      r.store.sweets == st.sweets[id := st.sweets[id].(quantity := st.sweets[id].quantity + quantity)])
    ensures r.result.Success? ==>
      && id in st.sweets && quantity >= 1
      && r.result.value == st.sweets[id].(quantity := st.sweets[id].quantity + quantity)
      && r.store.sweets == st.sweets[id := r.result.value]
    ensures RequireAdmin(caller).Success? && quantity >= 1 && id in st.sweets && FaultAt(net, 0) == Applied && FaultAt(net, 1) == Applied ==>
      var row := st.sweets[id].(quantity := st.sweets[id].quantity + quantity);
      r.store.sweets == st.sweets[id := row] && r.result == AsSweetResponse(row)
    ensures RequireAdmin(caller).Success? && quantity < 1 ==> r == Response(st, Failure(Unprocessable), [])
    ensures RequireAdmin(caller).Failure? ==> r == Response(st, Failure(RequireAdmin(caller).error), [])
  {
    match RequireAdmin(caller)
    case Failure(e) => Response(st, Failure(e), [])
    case Success(_) =>
      match ValidateQuantity(quantity)
      case Failure(e) => Response(st, Failure(e), [])
      case Success(q) =>
        var lookup := Select(st, id, FaultAt(net, 0));
        var calls1 := [SelectById(id)];
        match lookup
        case Raised => Response(st, Failure(ServerError), calls1)
        case Rows(None) => Response(st, Failure(SweetNotFound), calls1)
        case Rows(Some(sweet)) =>
          var upd := Update(st, id, QuantityPatch(sweet.quantity + q), FaultAt(net, 1));
          var calls2 := calls1 + [UpdateById(id, QuantityPatch(sweet.quantity + q))];
          match upd.reply
          case Raised => Response(upd.store, Failure(ServerError), calls2)
          case Rows(None) => Response(upd.store, Failure(ServerError), calls2)
          case Rows(Some(row)) => Response(upd.store, AsSweetResponse(row), calls2)
  }
}

=== FILE: backend_properties.dfy ===
/**
 * Properties of the backend's sweets endpoints that follow one request
 * through its sequence of backend calls, and one that follows two
 * requests.
 */
module BackendProperties {
  import opened Wrappers
  import opened Sweets
  import opened Client
  import opened Auth
  import opened Catalog
  import opened Backend

  /** A caller the admin gate refuses. */
  predicate NonAdmin(caller: Result<User, Error>) {
    caller.Success? && caller.value.role != Some("admin")
  }

  /** Creating, updating, deleting and restocking refuse a signed-in non-admin with 403, before any backend call. */
  lemma NonAdminCannotMutate(st: Store, caller: Result<User, Error>, id: Id, form: Validation.SweetForm, patch: Patch, quantity: int, net: seq<Fault>)
    requires NonAdmin(caller)
    ensures CreateSweet(st, caller, form, id, net) == Response(st, Failure(Forbidden), [])
    ensures UpdateSweet(st, caller, id, patch, net) == Response(st, Failure(Forbidden), [])
    ensures DeleteSweet(st, caller, id, net) == Response(st, Failure(Forbidden), [])
    ensures RestockSweet(st, caller, id, quantity, net) == Response(st, Failure(Forbidden), [])
    ensures Forbidden.Status() == 403
  {
  }

  /** Purchasing a sweet that does not exist is a 404 after the lookup alone; nothing changes. */
  lemma PurchaseMissingSweet(st: Store, caller: Result<User, Error>, id: Id, quantity: int, net: seq<Fault>)
    requires caller.Success? && quantity >= 1
    requires FaultAt(net, 0) == Applied && id !in st.sweets
    ensures PurchaseSweet(st, caller, id, quantity, net) == Response(st, Failure(SweetNotFound), [SelectById(id)])
  {
  }

  /** Asking for more than the stock is a 400 naming the stock available; nothing changes. */
  lemma PurchaseNotEnoughStock(st: Store, caller: Result<User, Error>, id: Id, quantity: int, net: seq<Fault>)
    requires caller.Success? && quantity >= 1
    requires FaultAt(net, 0) == Applied && id in st.sweets && st.sweets[id].quantity < quantity
    ensures var r := PurchaseSweet(st, caller, id, quantity, net);
      && r.store == st
      && r.result == Failure(NotEnoughStock(st.sweets[id].quantity))
      && r.result.error.Status() == 400
  {
  }

  /**
   * When every call takes effect, a purchase within the stock lowers the
   * stock by the quantity and records the price of the quantity; the stock
   * is written before the record.
   */
  lemma PurchaseSucceeds(st: Store, caller: Result<User, Error>, id: Id, quantity: int)
    requires caller.Success? && id in st.sweets && 1 <= quantity <= st.sweets[id].quantity
    ensures var s := st.sweets[id];
      var record := Purchase(caller.value.id, id, quantity, TotalPrice(s.price, quantity));
      var r := PurchaseSweet(st, caller, id, quantity, []);
      && r.result == Success(record)
      && r.store.sweets[id].quantity == s.quantity - quantity >= 0
      && r.store.purchases == st.purchases + [record]
      && r.calls == [SelectById(id), UpdateById(id, QuantityPatch(s.quantity - quantity)), InsertPurchaseRow(record)]
  {
  }

  /** Buying exactly the remaining stock is allowed and leaves none. */
  lemma PurchaseWholeStock(st: Store, caller: Result<User, Error>, id: Id)
    requires caller.Success? && id in st.sweets && st.sweets[id].quantity >= 1
    ensures var r := PurchaseSweet(st, caller, id, st.sweets[id].quantity, []);
      r.result.Success? && r.store.sweets[id].quantity == 0
  {
  }

  /** Three units of a sweet priced 2.50 with five in stock cost 7.50 and leave two. */
  lemma PurchaseExample(caller: Result<User, Error>)
    requires caller.Success?
    ensures var st := Store(map["s" := Sweet("Toffee", "", "candy", 2.5, 5, "")], []);
      var r := PurchaseSweet(st, caller, "s", 3, []);
      && r.result.Success? && r.result.value.totalPrice == 7.5
      && r.store.sweets["s"].quantity == 2
  {
  }

  /** If the record insert returns no row, the old stock is written back: a 500, and the store is as before. */
  lemma PurchaseInsertEmptyRestores(st: Store, caller: Result<User, Error>, id: Id, quantity: int)
    requires caller.Success? && id in st.sweets && 1 <= quantity <= st.sweets[id].quantity
    ensures var r := PurchaseSweet(st, caller, id, quantity, [Applied, Applied, Empty, Applied]);
      r.result == Failure(ServerError) && r.store == st
  {
  }

  /**
   * If the record insert raises instead, the restore is skipped: a 500, no
   * record, and the stock stays lowered.
   */
  lemma PurchaseInsertRaisesKeepsDecrement(st: Store, caller: Result<User, Error>, id: Id, quantity: int)
    requires caller.Success? && id in st.sweets && 1 <= quantity <= st.sweets[id].quantity
    ensures var r := PurchaseSweet(st, caller, id, quantity, [Applied, Applied, Raises]);
      && r.result == Failure(ServerError)
      && r.store.purchases == st.purchases
      && r.store.sweets[id].quantity == st.sweets[id].quantity - quantity
  {
  }

  /** The result of the stock write is never checked: when it has no effect the purchase is still recorded and reported. */
  lemma PurchaseIgnoresStockWrite(st: Store, caller: Result<User, Error>, id: Id, quantity: int)
    requires caller.Success? && id in st.sweets && 1 <= quantity <= st.sweets[id].quantity
    ensures var r := PurchaseSweet(st, caller, id, quantity, [Applied, Empty, Applied]);
      && r.result.Success?
      && r.store.sweets == st.sweets
      && |r.store.purchases| == |st.purchases| + 1
  {
  }

  /** A restock by an admin raises the stock by the quantity; a missing sweet is a 404. */
  lemma RestockAddsStock(st: Store, caller: Result<User, Error>, id: Id, quantity: int)
    requires caller.Success? && caller.value.role == Some("admin") && quantity >= 1
    ensures id in st.sweets ==>
      RestockSweet(st, caller, id, quantity, []).store.sweets[id].quantity == st.sweets[id].quantity + quantity
    ensures id !in st.sweets ==>
      RestockSweet(st, caller, id, quantity, []) == Response(st, Failure(SweetNotFound), [SelectById(id)])
  {
  }

  /** Updating or deleting an id that matches no row is a 404 and changes nothing. */
  lemma MissingIdIsNotFound(st: Store, caller: Result<User, Error>, id: Id, patch: Patch)
    requires caller.Success? && caller.value.role == Some("admin")
    requires id !in st.sweets && !patch.IsEmpty()
    ensures UpdateSweet(st, caller, id, patch, []) == Response(st, Failure(SweetNotFound), [UpdateById(id, patch)])
    ensures DeleteSweet(st, caller, id, []) == Response(st, Failure(SweetNotFound), [DeleteById(id)])
    ensures SweetNotFound.Status() == 404
  {
  }

  /**
   * The update model puts no bound on the stock, so an admin can write a
   * negative stock. The row is written, the response check then turns the
   * reply into a 500, and from then on every search that lists the row
   * fails with a 500 too.
   */
  lemma UpdateBreaksStockInvariant(st: Store, admin: Result<User, Error>, id: Id)
    requires admin.Success? && admin.value.role == Some("admin")
    requires Valid(st) && id in st.sweets
    ensures var r := UpdateSweet(st, admin, id, QuantityPatch(-1), []);
      && r.store.sweets[id].quantity == -1
      && !Valid(r.store)
      && r.result == Failure(ServerError)
      && SearchSweets(r.store, [id], admin, SearchParams(None, None, None, None), []).result == Failure(ServerError)
  {
  }
}

=== FILE: card.dfy ===
/**
 * The item card in the browser: its local state, which buttons it shows
 * and enables, and its purchase, restock and delete handlers, which talk
 * to the hosted backend directly.
 */
module Card {
  import opened Wrappers
  import opened Sweets
  import opened Client

  /** The card's local state: the purchase dialog and its quantity, and the restock dialog and its quantity. */
  datatype CardState = CardState(purchasing: bool, quantity: int, showPurchase: bool, restockQuantity: int, showRestock: bool)

  /** The state a card starts in. */
  const InitialCard := CardState(false, 1, false, 10, false)

  /** What the user sees after a handler: nothing, a reloaded catalog, or an alert with the error. */
  datatype Effect = Ignored | Refetch | Alert

  /** A handler's result: the store, the card state, the effect, and the backend calls issued in order. */
  datatype Outcome = Outcome(store: Store, card: CardState, effect: Effect, calls: seq<Call>)

  /** The purchase handler's guard: at least one unit and no more than the card shows in stock. */
  predicate PurchaseAllowed(sweet: Sweet, quantity: int) {
    !(quantity > sweet.quantity || quantity < 1)
  }

  /**
   * The purchase handler. `sweet` is the row the card was rendered from;
   * `user` is what the user lookup returns. After the guard it inserts the
   * purchase record and, only if that reported no error, writes the stock
   * the card shows less the quantity; the outcome of that write is not
   * looked at.
   */
  function HandlePurchase(st: Store, id: Id, sweet: Sweet, card: CardState, user: Option<Id>, net: seq<Fault>): (r: Outcome)
    ensures !PurchaseAllowed(sweet, card.quantity) ==> r == Outcome(st, card, Ignored, [])
    ensures Valid(st) ==> Valid(r.store)
    ensures r.store.sweets.Keys == st.sweets.Keys
    ensures forall k :: k in st.sweets && k != id ==> r.store.sweets[k] == st.sweets[k]
    ensures PurchaseAllowed(sweet, card.quantity) ==> (r.effect == Alert <==> user.None? || FaultAt(net, 0) == Raises)
    ensures r.effect == Alert ==>
      && r.store == st
      && r.card == card.(purchasing := false)
      && forall i :: 0 <= i < |r.calls| ==> !r.calls[i].WritesSweets()
    ensures r.effect == Refetch ==>
      && user.Some?
      && r.card == card.(purchasing := InitialCard.purchasing, showPurchase := InitialCard.showPurchase, quantity := InitialCard.quantity)
      && var record := Purchase(user.value, id, card.quantity, TotalPrice(sweet.price, card.quantity));
      && r.calls == [FetchUser, InsertPurchaseRow(record), UpdateById(id, QuantityPatch(sweet.quantity - card.quantity))]
      && (FaultAt(net, 0) == Applied ==> r.store.purchases == st.purchases + [record])
      && (FaultAt(net, 1) == Applied && id in st.sweets ==>
            && r.store.sweets[id] == st.sweets[id].(quantity := sweet.quantity - card.quantity)
            && r.store.sweets[id].quantity >= 0)
    ensures r.effect == Refetch && FaultAt(net, 0) != Applied ==> r.store.purchases == st.purchases
    ensures r.effect == Refetch && (FaultAt(net, 1) != Applied || id !in st.sweets) ==> r.store.sweets == st.sweets
  {
    if card.quantity > sweet.quantity || card.quantity < 1 then Outcome(st, card, Ignored, [])
    else
      var q := card.quantity;
      match user
      case None => Outcome(st, card.(purchasing := false), Alert, [FetchUser])
      case Some(uid) =>
        var record := Purchase(uid, id, q, TotalPrice(sweet.price, q));
        var ins := Record(st, record, FaultAt(net, 0));
        var calls := [FetchUser, InsertPurchaseRow(record)];
        if ins.reply.Raised? then Outcome(ins.store, card.(purchasing := false), Alert, calls)
        else
          var upd := Update(ins.store, id, QuantityPatch(sweet.quantity - q), FaultAt(net, 1));
          Outcome(upd.store, card.(purchasing := false, showPurchase := false, quantity := 1), Refetch,
                  calls + [UpdateById(id, QuantityPatch(sweet.quantity - q))])
  }

  /** The restock handler: after the guard, write the stock the card shows plus the restock quantity. */
  function HandleRestock(st: Store, id: Id, sweet: Sweet, card: CardState, net: seq<Fault>): (r: Outcome)
    ensures card.restockQuantity < 1 ==> r == Outcome(st, card, Ignored, [])
    ensures Valid(st) && sweet.quantity >= 0 ==> Valid(r.store)
    ensures r.store.purchases == st.purchases && r.store.sweets.Keys == st.sweets.Keys
    ensures r.effect == Alert ==> r.store == st && r.card == card
    ensures card.restockQuantity >= 1 ==> (r.effect == Alert <==> FaultAt(net, 0) == Raises)
    ensures card.restockQuantity >= 1 && FaultAt(net, 0) == Applied && id in st.sweets ==>
      r.store.sweets == st.sweets[id := st.sweets[id].(quantity := sweet.quantity + card.restockQuantity)]
    ensures FaultAt(net, 0) != Applied || id !in st.sweets ==> r.store == st
    ensures r.effect == Refetch ==>
      r.card == card.(showRestock := InitialCard.showRestock, restockQuantity := InitialCard.restockQuantity)
  {
    if card.restockQuantity < 1 then Outcome(st, card, Ignored, [])
    else
      var patch := QuantityPatch(sweet.quantity + card.restockQuantity);
      var upd := Update(st, id, patch, FaultAt(net, 0));
      if upd.reply.Raised? then Outcome(st, card, Alert, [UpdateById(id, patch)])
      else Outcome(upd.store, card.(showRestock := false, restockQuantity := 10), Refetch, [UpdateById(id, patch)])
  }

  /** The delete handler: nothing unless the user confirms, then one delete by id. */
  function HandleDelete(st: Store, id: Id, card: CardState, confirmed: bool, net: seq<Fault>): (r: Outcome)
    ensures !confirmed ==> r == Outcome(st, card, Ignored, [])
    ensures Valid(st) ==> Valid(r.store)
    ensures r.card == card && r.store.purchases == st.purchases
    ensures r.effect == Alert ==> r.store == st
    ensures confirmed ==> (r.effect == Alert <==> FaultAt(net, 0) == Raises)
    ensures confirmed && FaultAt(net, 0) == Applied ==> r.store.sweets == st.sweets - {id}
    ensures FaultAt(net, 0) != Applied ==> r.store == st
    ensures r.effect == Refetch ==> id !in r.store.sweets || FaultAt(net, 0) == Empty
  {
    if !confirmed then Outcome(st, card, Ignored, [])
    else
      var del := Delete(st, id, FaultAt(net, 0));
      if del.reply.Raised? then Outcome(st, card, Alert, [DeleteById(id)])
      else Outcome(del.store, card, Refetch, [DeleteById(id)])
  }

  /** The card's Purchase button is disabled when the stock shown is 0. */
  predicate PurchaseButtonEnabled(sweet: Sweet) {
    sweet.quantity != 0
  }

  /** The dialog's Confirm Purchase button. */
  predicate ConfirmPurchaseEnabled(card: CardState, sweet: Sweet) {
    !(card.purchasing || card.quantity > sweet.quantity || card.quantity < 1)
  }

  /** The dialog's Confirm Restock button. */
  predicate ConfirmRestockEnabled(card: CardState) {
    !(card.restockQuantity < 1)
  }

  /** The buttons on a card. */
  datatype Control = PurchaseControl | RestockControl | EditControl | DeleteControl

  /** The buttons a card renders: Purchase always, the admin row only for admins. */
  function Controls(isAdmin: bool): (r: set<Control>)
    ensures PurchaseControl in r
    ensures isAdmin <==> RestockControl in r
    ensures isAdmin <==> EditControl in r
    ensures isAdmin <==> DeleteControl in r
    ensures !isAdmin ==> r == {PurchaseControl}
  {
    {PurchaseControl} + (if isAdmin then {RestockControl, EditControl, DeleteControl} else {})
  }

  /** The confirm button is enabled exactly when no purchase is running and the handler's guard would pass. */
  lemma ConfirmMatchesGuard(st: Store, id: Id, sweet: Sweet, card: CardState, user: Option<Id>, net: seq<Fault>)
    ensures ConfirmPurchaseEnabled(card, sweet) <==> !card.purchasing && PurchaseAllowed(sweet, card.quantity)
    ensures ConfirmPurchaseEnabled(card, sweet) ==> HandlePurchase(st, id, sweet, card, user, net).effect != Ignored
    ensures ConfirmRestockEnabled(card) <==> HandleRestock(st, id, sweet, card, net).effect != Ignored
  {
  }

  /**
   * With a stock that is not negative, the Purchase button is enabled
   * exactly when a one-unit purchase passes the guard. A negative stock
   * enables the button although no quantity passes.
   */
  lemma PurchaseButtonMatchesStock(sweet: Sweet)
    ensures sweet.quantity >= 0 ==> (PurchaseButtonEnabled(sweet) <==> PurchaseAllowed(sweet, 1))
    ensures sweet.quantity < 0 ==> PurchaseButtonEnabled(sweet) && forall q :: !PurchaseAllowed(sweet, q)
  {
  }

  /** The purchase handler writes the stock after the record is accepted, and ignores how that write turns out: a failed write still closes the dialog and leaves the stock as it was. */
  lemma PurchaseIgnoresFailedStockWrite(st: Store, id: Id, sweet: Sweet, card: CardState, uid: Id)
    requires PurchaseAllowed(sweet, card.quantity)
    ensures var r := HandlePurchase(st, id, sweet, card, Some(uid), [Applied, Raises]);
      && r.effect == Refetch
      && r.store.sweets == st.sweets
      && |r.store.purchases| == |st.purchases| + 1
  {
  }
}

=== FILE: catalog.dfy ===
/**
 * The catalog view: the dashboard's in-browser filter, its category list,
 * and the backend's search query, with the conditions under which the two
 * filters agree.
 */
module Catalog {
  import opened Wrappers
  import opened Text
  import opened Seqs
  import opened Sweets

  /** The dashboard's filter inputs; an empty string or an absent bound imposes nothing. */
  datatype Criteria = Criteria(searchTerm: string, category: string, minPrice: Option<real>, maxPrice: Option<real>)

  /** All filter inputs empty, as when the dashboard opens. */
  const NoCriteria := Criteria("", "", None, None)

  /** The name contains the term, ignoring case. */
  predicate NameMatches(term: string, s: Sweet) {
    Includes(Lower(s.name), Lower(term))
  }

  function ByName(term: string): Sweet -> bool {
    (s: Sweet) => NameMatches(term, s)
  }

  function ByCategory(category: string): Sweet -> bool {
    (s: Sweet) => s.category == category
  }

  function AtLeast(lo: real): Sweet -> bool {
    (s: Sweet) => s.price >= lo
  }

  function AtMost(hi: real): Sweet -> bool {
    (s: Sweet) => s.price <= hi
  }

  /** A sweet meets every criterion that is set; the price bounds are inclusive. */
  predicate Matches(c: Criteria, s: Sweet) {
    && (c.searchTerm == "" || NameMatches(c.searchTerm, s))
    && (c.category == "" || s.category == c.category)
    && (c.minPrice.None? || s.price >= c.minPrice.value)
    && (c.maxPrice.None? || s.price <= c.maxPrice.value)
  }

  function MatchesAll(c: Criteria): Sweet -> bool {
    (s: Sweet) => Matches(c, s)
  }

  /**
   * The dashboard's filter: one pass per input that is set, in the order
   * name, category, minimum, maximum. The passes together select exactly
   * what one pass with the conjunction of all set criteria selects.
   */
  function FilterSweets(sweets: seq<Sweet>, c: Criteria): (r: seq<Sweet>)
    ensures r == Keep(sweets, MatchesAll(c))
  {
    var p1: Sweet -> bool := s => c.searchTerm == "" || NameMatches(c.searchTerm, s);
    var p2: Sweet -> bool := s => p1(s) && (c.category == "" || s.category == c.category);
    var p3: Sweet -> bool := s => p2(s) && (c.minPrice.None? || s.price >= c.minPrice.value);
    var byName := if c.searchTerm != "" then Keep(sweets, ByName(c.searchTerm)) else sweets;
    assert byName == Keep(sweets, p1) by {
      if c.searchTerm != "" {
        KeepAgreeing(sweets, ByName(c.searchTerm), p1);
      } else {
        KeepEverything(sweets, p1);
      }
    }
    var byCategory := if c.category != "" then Keep(byName, ByCategory(c.category)) else byName;
    assert byCategory == Keep(sweets, p2) by {
      if c.category != "" {
        KeepTwice(sweets, p1, ByCategory(c.category), p2);
      } else {
        KeepAgreeing(sweets, p1, p2);
      }
    }
    var byMin := if c.minPrice.Some? then Keep(byCategory, AtLeast(c.minPrice.value)) else byCategory;
    assert byMin == Keep(sweets, p3) by {
      if c.minPrice.Some? {
        KeepTwice(sweets, p2, AtLeast(c.minPrice.value), p3);
      } else {
        KeepAgreeing(sweets, p2, p3);
      }
    }
    var r := if c.maxPrice.Some? then Keep(byMin, AtMost(c.maxPrice.value)) else byMin;
    assert r == Keep(sweets, MatchesAll(c)) by {
      if c.maxPrice.Some? {
        KeepTwice(sweets, p3, AtMost(c.maxPrice.value), MatchesAll(c));
      } else {
        KeepAgreeing(sweets, p3, MatchesAll(c));
      }
    }
    r
  }

  /** A sweet is shown iff it is in the list and meets every criterion that is set. */
  lemma FilterMembership(sweets: seq<Sweet>, c: Criteria, s: Sweet)
    ensures s in FilterSweets(sweets, c) <==> s in sweets && Matches(c, s)
  {
    KeepMembership(sweets, MatchesAll(c), s);
  }

  /** Every shown sweet meets every criterion that is set. */
  lemma FilterSound(sweets: seq<Sweet>, c: Criteria)
    ensures forall i :: 0 <= i < |FilterSweets(sweets, c)| ==> Matches(c, FilterSweets(sweets, c)[i])
  {
    KeepAllPass(sweets, MatchesAll(c));
  }

  /** The shown sweets keep the order of the fetched list; nothing is re-sorted. */
  lemma FilterKeepsOrder(sweets: seq<Sweet>, c: Criteria)
    ensures IsSubsequence(FilterSweets(sweets, c), sweets)
  {
    KeepIsSubsequence(sweets, MatchesAll(c));
  }

  /** Filtering the shown sweets again with the same inputs shows the same sweets. */
  lemma FilterIdempotent(sweets: seq<Sweet>, c: Criteria)
    ensures FilterSweets(FilterSweets(sweets, c), c) == FilterSweets(sweets, c)
  {
    KeepIdempotent(sweets, MatchesAll(c));
  }

  /** With every input empty the whole list is shown, unchanged. */
  lemma FilterWithoutCriteria(sweets: seq<Sweet>)
    ensures FilterSweets(sweets, NoCriteria) == sweets
  {
  }

  /** The column of categories, one per sweet. */
  function CategoryColumn(sweets: seq<Sweet>): (r: seq<string>)
    ensures |r| == |sweets|
  {
    seq(|sweets|, i requires 0 <= i < |sweets| => sweets[i].category)
  }

  /** The category options: each category of the list once, in order of first appearance. */
  function Categories(sweets: seq<Sweet>): (r: seq<string>)
    ensures NoDuplicates(r)
    ensures forall i :: 0 <= i < |r| ==> exists j :: 0 <= j < |sweets| && sweets[j].category == r[i]
    ensures forall j :: 0 <= j < |sweets| ==> sweets[j].category in r
    ensures IsSubsequence(r, CategoryColumn(sweets))
    ensures FirstAppearanceOrder(r, CategoryColumn(sweets))
  {
    var column := CategoryColumn(sweets);
    DistinctIsSubsequence(column);
    DistinctFirstAppearance(column);
    var r := Distinct(column);
    assert forall i :: 0 <= i < |r| ==> exists j :: 0 <= j < |sweets| && sweets[j].category == r[i] by {
      forall i | 0 <= i < |r|
        ensures exists j :: 0 <= j < |sweets| && sweets[j].category == r[i]
      {
        var j :| 0 <= j < |column| && column[j] == r[i];
      }
    }
    assert forall j :: 0 <= j < |sweets| ==> sweets[j].category in r by {
      forall j | 0 <= j < |sweets|
        ensures sweets[j].category in r
      {
        assert column[j] == sweets[j].category;
      }
    }
    r
  }

  /** The backend search's query parameters; each is absent when not sent. */
  datatype SearchParams = SearchParams(name: Option<string>, category: Option<string>, minPrice: Option<real>, maxPrice: Option<real>)

  /** A text parameter restricts the search only when sent and non-empty. */
  predicate IsSet(p: Option<string>) {
    p.Some? && p.value != ""
  }

  /** The `where` clause of the search: `ilike` on the name, equality on the category, inclusive bounds on the price whenever sent (a zero bound too). */
  predicate SearchSelects(p: SearchParams, s: Sweet) {
    && (!IsSet(p.name) || ILike(s.name, "%" + p.name.value + "%"))
    && (!IsSet(p.category) || s.category == p.category.value)
    && (p.minPrice.None? || s.price >= p.minPrice.value)
    && (p.maxPrice.None? || s.price <= p.maxPrice.value)
  }

  function SearchFilter(p: SearchParams): Sweet -> bool {
    (s: Sweet) => SearchSelects(p, s)
  }

  /** The rows the search returns from the table's rows, listed in the table's order. */
  function SearchRows(rows: seq<Sweet>, p: SearchParams): (r: seq<Sweet>)
    ensures IsSubsequence(r, rows)
    ensures forall i :: 0 <= i < |r| ==> SearchSelects(p, r[i])
    ensures forall i :: 0 <= i < |rows| && SearchSelects(p, rows[i]) ==> rows[i] in r
  {
    var r := Keep(rows, SearchFilter(p));
    KeepIsSubsequence(rows, SearchFilter(p));
    KeepAllPass(rows, SearchFilter(p));
    assert forall i :: 0 <= i < |rows| && SearchSelects(p, rows[i]) ==> rows[i] in r by {
      forall i | 0 <= i < |rows| && SearchSelects(p, rows[i])
        ensures rows[i] in r
      {
        KeepMembership(rows, SearchFilter(p), rows[i]);
      }
    }
    r
  }

  /** A row is returned iff it is in the table and meets every parameter that was sent. */
  lemma SearchMembership(rows: seq<Sweet>, p: SearchParams, s: Sweet)
    ensures s in SearchRows(rows, p) <==> s in rows && SearchSelects(p, s)
    ensures IsSubsequence(SearchRows(rows, p), rows)
  {
    KeepMembership(rows, SearchFilter(p), s);
    KeepIsSubsequence(rows, SearchFilter(p));
  }

  /**
   * A price bound of zero is applied, not skipped: a priced sweet is
   * outside `max_price=0`. Both bounds are inclusive: a sweet lies within
   * bounds equal to its own price.
   */
  lemma ZeroBoundIsActive(s: Sweet)
    ensures s.price > 0.0 ==> !SearchSelects(SearchParams(None, None, None, Some(0.0)), s)
    ensures s.price >= 0.0 ==> SearchSelects(SearchParams(None, None, Some(0.0), None), s)
    ensures SearchSelects(SearchParams(None, None, Some(s.price), Some(s.price)), s)
  {
  }

  /** The dashboard inputs that correspond to a set of search parameters. */
  function AsCriteria(p: SearchParams): Criteria {
    Criteria(p.name.GetOr(""), p.category.GetOr(""), p.minPrice, p.maxPrice)
  }

  /** The backend search and the dashboard filter select the same sweets, in the same order, whenever the name term has no pattern characters. */
  lemma SearchAgreesWithDashboard(rows: seq<Sweet>, p: SearchParams)
    requires PlainTerm(p.name.GetOr(""))
    ensures SearchRows(rows, p) == FilterSweets(rows, AsCriteria(p))
  {
    var c := AsCriteria(p);
    forall s
      ensures SearchFilter(p)(s) == MatchesAll(c)(s)
    {
      if IsSet(p.name) {
        ILikeIsCaseInsensitiveIncludes(s.name, p.name.value);
      }
    }
    KeepAgreeing(rows, SearchFilter(p), MatchesAll(c));
  }
}

=== FILE: catalog_examples.dfy ===
/** Worked examples of the dashboard filter. */
module CatalogExamples {
  import opened Wrappers
  import opened Text
  import opened Seqs
  import opened Sweets
  import opened Catalog

  function Item(name: string, price: real): Sweet {
    Sweet(name, "", "candy", price, 5, "")
  }

  lemma GummyBearMatches()
    ensures NameMatches("gummy", Item("Gummy Bear", 1.0))
  {
    var g := Lower("Gummy Bear");
    assert Lower("gummy") == "gummy";
    assert g[..5] == "gummy";
    assert IsPrefix("gummy", g);
  }

  lemma ChocoBarDoesNotMatch()
    ensures !NameMatches("gummy", Item("Choco Bar", 1.0))
  {
    assert Lower("gummy") == "gummy";
    var c := Lower("Choco Bar");
    assert c == "choco bar";
    NotIncludedWithoutFirstChar(c, "gummy");
  }

  /** A term kept by one of two items and dropped by the other leaves just the first. */
  lemma NameFilterOfTwo(a: Sweet, b: Sweet, term: string)
    requires term != "" && NameMatches(term, a) && !NameMatches(term, b)
    ensures FilterSweets([a, b], Criteria(term, "", None, None)) == [a]
  {
    var xs := [a, b];
    var p := ByName(term);
    assert xs[1..] == [b];
    assert xs[1..][1..] == [];
    assert Keep(xs[1..][1..], p) == [];
    assert !p(b);
    assert Keep(xs[1..], p) == [];
    assert p(a);
    assert Keep(xs, p) == [a];
  }

  /** Searching "gummy" keeps "Gummy Bear" and drops "Choco Bar". */
  lemma SearchExample()
    ensures FilterSweets([Item("Gummy Bear", 1.0), Item("Choco Bar", 1.0)], Criteria("gummy", "", None, None)) == [Item("Gummy Bear", 1.0)]
  {
    GummyBearMatches();
    ChocoBarDoesNotMatch();
    NameFilterOfTwo(Item("Gummy Bear", 1.0), Item("Choco Bar", 1.0), "gummy");
  }

  /** Bounds 1 and 3 over prices 0.5, 2 and 4 keep only the item priced 2. */
  lemma PriceRangeExample()
    ensures FilterSweets([Item("a", 0.5), Item("b", 2.0), Item("c", 4.0)], Criteria("", "", Some(1.0), Some(3.0))) == [Item("b", 2.0)]
  {
    var xs := [Item("a", 0.5), Item("b", 2.0), Item("c", 4.0)];
    var c := Criteria("", "", Some(1.0), Some(3.0));
    var p := MatchesAll(c);
    assert xs[1..] == [Item("b", 2.0), Item("c", 4.0)];
    assert xs[1..][1..] == [Item("c", 4.0)];
    assert xs[1..][1..][1..] == [];
    assert Keep(xs[1..][1..], p) == [];
    assert Keep(xs[1..], p) == [Item("b", 2.0)];
    assert Keep(xs, p) == [Item("b", 2.0)];
  }
}

=== FILE: client.dfy ===
/**
 * The hosted backend as the application sees it: each call is one
 * sequential step against the store that may take effect, come back
 * empty, or raise. A handler's calls against the tables draw their faults,
 * in order, from a script `net`; a call past the end of the script takes
 * effect. The browser's user lookup is not such a call: its answer is a
 * parameter of the handler that makes it.
 */
module Client {
  import opened Wrappers
  import opened Sweets

  /** How one call to the backend turns out. */
  datatype Fault =
    | Applied  // the call takes effect and returns the rows it touched
    | Empty    // the call has no effect and returns no rows
    | Raises   // the client reports an error; nothing changes

  /** The calls the shop issues, recorded in the order issued. */
  datatype Call =
    | FetchUser
    | SelectById(id: Id)
    | SelectFiltered
    | InsertSweetRow(id: Id, sweet: Sweet)
    | UpdateById(id: Id, patch: Patch)
    | DeleteById(id: Id)
    | InsertPurchaseRow(record: Purchase)
  {
    /** The call writes the sweets table. */
    predicate WritesSweets() {
      InsertSweetRow? || UpdateById? || DeleteById?
    }
  }

  /** What a call returns: an error, or the row it touched (`None` for an empty response). */
  datatype Reply<T> = Raised | Rows(data: Option<T>)

  /** A call's reply together with the store after it. */
  datatype Step<T> = Step(store: Store, reply: Reply<T>)

  /** The fault of the `i`-th call a handler issues. */
  function FaultAt(net: seq<Fault>, i: nat): Fault {
    if i < |net| then net[i] else Applied
  }

  /** `select * from sweets where id = ...`, at most one row. */
  function Select(st: Store, id: Id, f: Fault): Reply<Sweet> {
    match f
    case Raises => Raised
    case Empty => Rows(None)
    case Applied => Rows(if id in st.sweets then Some(st.sweets[id]) else None)
  }

  /** `update sweets set ... where id = ...`, returning the updated row. */
  function Update(st: Store, id: Id, p: Patch, f: Fault): Step<Sweet> {
    if f == Applied && id in st.sweets then
      var row := ApplyPatch(st.sweets[id], p);
      Step(st.(sweets := st.sweets[id := row]), Rows(Some(row)))
    else
      Step(st, if f == Raises then Raised else Rows(None))
  }

  /** `insert into sweets`, under the identifier the database generates; a clash of keys raises. */
  function InsertRow(st: Store, id: Id, s: Sweet, f: Fault): Step<Sweet> {
    if f == Raises || (f == Applied && id in st.sweets) then Step(st, Raised)
    else if f == Empty then Step(st, Rows(None))
    else Step(st.(sweets := st.sweets[id := s]), Rows(Some(s)))
  }

  /** `delete from sweets where id = ...`, returning the deleted row. */
  function Delete(st: Store, id: Id, f: Fault): Step<Sweet> {
    if f == Applied && id in st.sweets then
      Step(st.(sweets := st.sweets - {id}), Rows(Some(st.sweets[id])))
    else
      Step(st, if f == Raises then Raised else Rows(None))
  }

  /** `insert into purchases`, appending to the log. */
  function Record(st: Store, p: Purchase, f: Fault): Step<Purchase> {
    match f
    case Raises => Step(st, Raised)
    case Empty => Step(st, Rows(None))
    case Applied => Step(st.(purchases := st.purchases + [p]), Rows(Some(p)))
  }
}

=== FILE: purchase_flows.dfy ===
/**
 * The two purchase paths side by side: the card writes the record and
 * then the stock; the backend writes the stock and then the record.
 */
module PurchaseFlows {
  import opened Wrappers
  import opened Sweets
  import opened Client
  import opened Card
  import opened Backend

  /**
   * With no failures and a card showing the current row, both paths end
   * in the same store, but issue the two writes in opposite orders.
   */
  lemma SameStoreOppositeOrder(st: Store, id: Id, card: CardState, user: User)
    requires id in st.sweets && PurchaseAllowed(st.sweets[id], card.quantity)
    ensures var s := st.sweets[id];
      var q := card.quantity;
      var record := Purchase(user.id, id, q, TotalPrice(s.price, q));
      var write := UpdateById(id, QuantityPatch(s.quantity - q));
      var front := HandlePurchase(st, id, s, card, Some(user.id), []);
      var back := PurchaseSweet(st, Success(user), id, q, []);
      && front.store == back.store
      && front.calls == [FetchUser, InsertPurchaseRow(record), write]
      && back.calls == [SelectById(id), write, InsertPurchaseRow(record)]
  {
  }

  /**
   * When the record insert fails, the card never writes the stock, but the
   * backend has already lowered it and, unless the insert only came back
   * empty, leaves it lowered.
   */
  lemma InsertFailureDiverges(st: Store, id: Id, card: CardState, user: User)
    requires id in st.sweets && PurchaseAllowed(st.sweets[id], card.quantity)
    ensures var s := st.sweets[id];
      var front := HandlePurchase(st, id, s, card, Some(user.id), [Raises]);
      var back := PurchaseSweet(st, Success(user), id, card.quantity, [Applied, Applied, Raises]);
      && front.effect == Alert && front.store == st
      && back.result.Failure? && back.store.sweets[id].quantity == s.quantity - card.quantity
  {
  }
}

=== FILE: seqs.dfy ===
/**
 * Order-preserving list operations the catalog is built from:
 * JavaScript's `Array.prototype.filter` (`Keep`) and the first-occurrence
 * order of `Array.from(new Set(xs))` (`Distinct`).
 */
module Seqs {

  /** `a` is `b` with some elements dropped and the rest in their original order. */
  predicate IsSubsequence<T(==)>(a: seq<T>, b: seq<T>)
    decreases |b|
  {
    if |a| == 0 then true
    else if |b| == 0 then false
    else if a[0] == b[0] then IsSubsequence(a[1..], b[1..])
    else IsSubsequence(a, b[1..])
  }

  lemma {:induction false} SubsequenceOfSelf<T>(a: seq<T>)
    ensures IsSubsequence(a, a)
    decreases |a|
  {
    if |a| > 0 {
      SubsequenceOfSelf(a[1..]);
    }
  }

  /** Dropping one more element at the end keeps a subsequence. */
  lemma {:induction false} SubsequenceExtendRight<T>(a: seq<T>, b: seq<T>, x: T)
    requires IsSubsequence(a, b)
    ensures IsSubsequence(a, b + [x])
    decreases |b|
  {
    if |a| > 0 && |b| > 0 {
      assert (b + [x])[1..] == b[1..] + [x];
      if a[0] == b[0] {
        SubsequenceExtendRight(a[1..], b[1..], x);
      } else {
        SubsequenceExtendRight(a, b[1..], x);
      }
    }
  }

  /** Keeping one more element at the end keeps a subsequence. */
  lemma {:induction false} SubsequenceAppendBoth<T>(a: seq<T>, b: seq<T>, x: T)
    requires IsSubsequence(a, b)
    ensures IsSubsequence(a + [x], b + [x])
    decreases |b|
  {
    if |a| == 0 {
      assert IsSubsequence([x], [x]) by { SubsequenceOfSelf([x]); }
      SubsequenceSkipPrefix([x], b, [x]);
      assert a + [x] == [x];
    } else {
      assert |b| > 0;
      assert (a + [x])[1..] == a[1..] + [x];
      assert (b + [x])[1..] == b[1..] + [x];
      if a[0] == b[0] {
        SubsequenceAppendBoth(a[1..], b[1..], x);
      } else {
        SubsequenceAppendBoth(a, b[1..], x);
      }
    }
  }

  /** A subsequence of a suffix is a subsequence of the whole. */
  lemma {:induction false} SubsequenceSkipPrefix<T>(a: seq<T>, pre: seq<T>, b: seq<T>)
    requires IsSubsequence(a, b)
    ensures IsSubsequence(a, pre + b)
    decreases |pre|
  {
    if |pre| > 0 {
      SubsequenceSkipPrefix(a, pre[1..], b);
      assert (pre + b)[1..] == pre[1..] + b;
      SubsequenceConsSkip(a, pre + b);
    } else {
      assert pre + b == b;
    }
  }

  /** Dropping the head of a subsequence keeps a subsequence. */
  lemma {:induction false} SubsequenceDropFirst<T>(a: seq<T>, b: seq<T>)
    requires |a| > 0
    requires IsSubsequence(a, b)
    ensures IsSubsequence(a[1..], b)
    decreases |b|, 1
  {
    if a[0] != b[0] {
      SubsequenceDropFirst(a, b[1..]);
    }
    SubsequenceConsSkip(a[1..], b);
  }

  /** A subsequence of the tail is a subsequence of the whole. */
  lemma {:induction false} SubsequenceConsSkip<T>(a: seq<T>, b: seq<T>)
    requires |b| > 0
    requires IsSubsequence(a, b[1..])
    ensures IsSubsequence(a, b)
    decreases |b|, 0
  {
    if |a| > 0 && a[0] == b[0] {
      SubsequenceDropFirst(a, b[1..]);
    }
  }

  /** The elements of `xs` for which `p` holds, in their original order (`xs.filter(p)`). */
  function Keep<T>(xs: seq<T>, p: T -> bool): (r: seq<T>)
    ensures |r| <= |xs|
    decreases |xs|
  {
    if |xs| == 0 then []
    else if p(xs[0]) then [xs[0]] + Keep(xs[1..], p)
    else Keep(xs[1..], p)
  }

  /** An element survives the filter iff it was in the input and passes the predicate. */
  lemma {:induction false} KeepMembership<T>(xs: seq<T>, p: T -> bool, x: T)
    ensures x in Keep(xs, p) <==> x in xs && p(x)
    decreases |xs|
  {
    if |xs| > 0 {
      KeepMembership(xs[1..], p, x);
      assert xs == [xs[0]] + xs[1..];
    }
  }

  /** Every kept element passes the predicate. */
  lemma {:induction false} KeepAllPass<T>(xs: seq<T>, p: T -> bool)
    ensures forall i :: 0 <= i < |Keep(xs, p)| ==> p(Keep(xs, p)[i])
    decreases |xs|
  {
    if |xs| > 0 {
      KeepAllPass(xs[1..], p);
    }
  }

  /** The filter drops elements but never reorders them. */
  lemma {:induction false} KeepIsSubsequence<T>(xs: seq<T>, p: T -> bool)
    ensures IsSubsequence(Keep(xs, p), xs)
    decreases |xs|
  {
    if |xs| > 0 {
      KeepIsSubsequence(xs[1..], p);
      if p(xs[0]) {
        assert ([xs[0]] + Keep(xs[1..], p))[1..] == Keep(xs[1..], p);
      } else {
        SubsequenceConsSkip(Keep(xs[1..], p), xs);
      }
    }
  }

  /** A predicate true of every element keeps the whole list. */
  lemma {:induction false} KeepEverything<T>(xs: seq<T>, p: T -> bool)
    requires forall i :: 0 <= i < |xs| ==> p(xs[i])
    ensures Keep(xs, p) == xs
    decreases |xs|
  {
    if |xs| > 0 {
      KeepEverything(xs[1..], p);
    }
  }

  /** Predicates that agree on every element keep the same elements. */
  lemma {:induction false} KeepAgreeing<T>(xs: seq<T>, p: T -> bool, q: T -> bool)
    requires forall x :: p(x) == q(x)
    ensures Keep(xs, p) == Keep(xs, q)
    decreases |xs|
  {
    if |xs| > 0 {
      KeepAgreeing(xs[1..], p, q);
    }
  }

  /** Two passes are one pass with the conjunction of their predicates. */
  lemma {:induction false} KeepTwice<T>(xs: seq<T>, p: T -> bool, q: T -> bool, both: T -> bool)
    requires forall x :: both(x) == (p(x) && q(x))
    ensures Keep(Keep(xs, p), q) == Keep(xs, both)
    decreases |xs|
  {
    if |xs| > 0 {
      KeepTwice(xs[1..], p, q, both);
    }
  }

  /** Filtering a filtered list again with the same predicate changes nothing. */
  lemma {:induction false} KeepIdempotent<T>(xs: seq<T>, p: T -> bool)
    ensures Keep(Keep(xs, p), p) == Keep(xs, p)
  {
    KeepAllPass(xs, p);
    KeepEverything(Keep(xs, p), p);
  }

  /** No element occurs twice. */
  predicate NoDuplicates<T(==)>(xs: seq<T>) {
    forall i, j :: 0 <= i < j < |xs| ==> xs[i] != xs[j]
  }

  /**
   * The distinct elements of `xs` in order of first occurrence: what
   * `Array.from(new Set(xs))` yields, since a set remembers insertion order.
   */
  function Distinct<T(==)>(xs: seq<T>): (r: seq<T>)
    ensures NoDuplicates(r)
    ensures forall i :: 0 <= i < |r| ==> r[i] in xs
    ensures forall i :: 0 <= i < |xs| ==> xs[i] in r
    decreases |xs|
  {
    if |xs| == 0 then []
    else
      var d := Distinct(xs[..|xs| - 1]);
      var last := xs[|xs| - 1];
      assert xs == xs[..|xs| - 1] + [last];
      if last in d then d else d + [last]
  }

  /**
   * `r` lists elements in the order they first appear in `xs`: whenever
   * `r[i]` comes before `r[j]`, `r[i]` occurs in `xs` before any occurrence
   * of `r[j]`.
   */
  predicate FirstAppearanceOrder<T(==)>(r: seq<T>, xs: seq<T>) {
    forall i, j :: 0 <= i < j < |r| ==>
      exists k :: 0 <= k < |xs| && xs[k] == r[i] && r[j] !in xs[..k]
  }

  /** The distinct elements come in order of first appearance. */
  lemma {:induction false} DistinctFirstAppearance<T>(xs: seq<T>)
    ensures FirstAppearanceOrder(Distinct(xs), xs)
    decreases |xs|
  {
    if |xs| > 0 {
      var init := xs[..|xs| - 1];
      var last := xs[|xs| - 1];
      var d := Distinct(init);
      var r := Distinct(xs);
      DistinctFirstAppearance(init);
      forall i, j | 0 <= i < j < |r|
        ensures exists k :: 0 <= k < |xs| && xs[k] == r[i] && r[j] !in xs[..k]
      {
        if j < |d| {
          var k :| 0 <= k < |init| && init[k] == d[i] && d[j] !in init[..k];
          assert xs[..k] == init[..k];
          assert xs[k] == init[k];
        } else {
          assert r == d + [last] && last !in d;
          var k :| 0 <= k < |init| && init[k] == d[i];
          assert last !in init;
          assert xs[..k] == init[..k];
          assert xs[k] == init[k];
        }
      }
    }
  }

  /** The distinct elements form a subsequence of the input. */
  lemma {:induction false} DistinctIsSubsequence<T>(xs: seq<T>)
    ensures IsSubsequence(Distinct(xs), xs)
    decreases |xs|
  {
    if |xs| > 0 {
      var init := xs[..|xs| - 1];
      var last := xs[|xs| - 1];
      assert xs == init + [last];
      DistinctIsSubsequence(init);
      if last in Distinct(init) {
        SubsequenceExtendRight(Distinct(init), init, last);
      } else {
        SubsequenceAppendBoth(Distinct(init), init, last);
      }
    }
  }
}

=== FILE: sweets.dfy ===
/**
 * The data model of the sweet shop: catalog items, purchase records,
 * user profiles, the store the hosted database keeps, and the error
 * responses the backend returns.
 */
module Sweets {
  import opened Wrappers

  /** Row identifiers; the database generates them. */
  type Id = string

  /** A catalog item. Timestamps are left out; `price` is exact. */
  datatype Sweet = Sweet(
    name: string,
    description: string,
    category: string,
    price: real,
    quantity: int,
    imageUrl: string)

  /** A purchase record; `totalPrice` is fixed when the purchase is made. */
  datatype Purchase = Purchase(userId: Id, sweetId: Id, quantity: int, totalPrice: real)

  /** A user profile; `role` is absent when the profile row has no role. */
  datatype User = User(id: Id, email: string, fullName: string, role: Option<string>)

  /** The two tables the shop writes: sweets by id, and the purchase log in insertion order. */
  datatype Store = Store(sweets: map<Id, Sweet>, purchases: seq<Purchase>)

  /** The price of `quantity` units at unit price `price`. */
  function TotalPrice(price: real, quantity: int): real {
    price * quantity as real
  }

  /** The constraints a catalog row must meet to be accepted or returned as a sweet. */
  predicate ValidSweet(s: Sweet) {
    |s.name| >= 1 && |s.category| >= 1 && s.price >= 0.0 && s.quantity >= 0
  }

  /** Every sweet in the store is valid; in particular no stock is negative. */
  predicate Valid(st: Store) {
    forall id :: id in st.sweets ==> ValidSweet(st.sweets[id])
  }

  /** A partial update: the fields that are present replace the sweet's own. */
  datatype Patch = Patch(
    name: Option<string>,
    description: Option<string>,
    category: Option<string>,
    price: Option<real>,
    quantity: Option<int>,
    imageUrl: Option<string>)
  {
    /** No field is set. */
    predicate IsEmpty() {
      name.None? && description.None? && category.None? && price.None? && quantity.None? && imageUrl.None?
    }
  }

  /** The update that only sets the stock. */
  function QuantityPatch(q: int): Patch {
    Patch(None, None, None, None, Some(q), None)
  }

  /** The sweet with the patch's fields written over it. */
  function ApplyPatch(s: Sweet, p: Patch): Sweet {
    Sweet(
      p.name.GetOr(s.name),
      p.description.GetOr(s.description),
      p.category.GetOr(s.category),
      p.price.GetOr(s.price),
      p.quantity.GetOr(s.quantity),
      p.imageUrl.GetOr(s.imageUrl))
  }

  /** Applying a patch sets exactly the fields it carries and leaves all others as they were. */
  lemma ApplyPatchFields(s: Sweet, p: Patch)
    ensures var r := ApplyPatch(s, p);
      && (if p.name.Some? then r.name == p.name.value else r.name == s.name)
      && (if p.description.Some? then r.description == p.description.value else r.description == s.description)
      && (if p.category.Some? then r.category == p.category.value else r.category == s.category)
      && (if p.price.Some? then r.price == p.price.value else r.price == s.price)
      && (if p.quantity.Some? then r.quantity == p.quantity.value else r.quantity == s.quantity)
      && (if p.imageUrl.Some? then r.imageUrl == p.imageUrl.value else r.imageUrl == s.imageUrl)
    ensures p.IsEmpty() ==> ApplyPatch(s, p) == s
  {
  }

  /** A stock-only patch keeps a valid sweet valid exactly when the new stock is not negative. */
  lemma QuantityPatchValid(s: Sweet, q: int)
    requires ValidSweet(s)
    ensures ValidSweet(ApplyPatch(s, QuantityPatch(q))) <==> q >= 0
  {
  }

  /** The error responses of the backend; each carries an HTTP status. */
  datatype Error =
    | Unauthorized                    // "Invalid authentication credentials"
    | Forbidden                       // "Not enough permissions"
    | Unprocessable                   // the request body breaks its model's constraints
    | NotEnoughStock(available: int)  // "Not enough stock. Available: <n>"
    | NoFieldsToUpdate
    | CreateFailed                    // "Failed to create sweet"
    | SweetNotFound
    | ProfileNotFound                 // "User profile not found"
    | ServerError                     // a failed backend call, or a response that breaks its model
  {
    /** The HTTP status code of the response. */
    function Status(): int {
      match this
      case Unauthorized => 401
      case Forbidden => 403
      case Unprocessable => 422
      case NotEnoughStock(_) => 400
      case NoFieldsToUpdate => 400
      case CreateFailed => 400
      case SweetNotFound => 404
      case ProfileNotFound => 404
      case ServerError => 500
    }
  }
}

=== FILE: text.dfy ===
/**
 * Text matching used by the catalog search: lower-casing, substring
 * containment (JavaScript's `String.prototype.includes`) and the
 * case-insensitive pattern match the hosted database applies for `ilike`.
 */
module Text {

  /** Lower-case one character; only ASCII letters change. */
  function LowerChar(c: char): char {
    if 'A' <= c <= 'Z' then (c as int + 32) as char else c
  }

  /** Lower-case a string character by character. */
  function Lower(s: string): (r: string)
    ensures |r| == |s|
    ensures forall i :: 0 <= i < |s| ==> r[i] == LowerChar(s[i])
  {
    if |s| == 0 then [] else [LowerChar(s[0])] + Lower(s[1..])
  }

  lemma LowerAppend(a: string, b: string)
    ensures Lower(a + b) == Lower(a) + Lower(b)
  {
  }

  /** `t` is a prefix of `s`. */
  predicate IsPrefix(t: string, s: string) {
    |t| <= |s| && s[..|t|] == t
  }

  /** `t` occurs in `s` at position `i`. */
  predicate OccursAt(s: string, t: string, i: int) {
    0 <= i && i + |t| <= |s| && s[i..i + |t|] == t
  }

  /** JavaScript's `s.includes(t)`, scanning `s` from the left. */
  predicate Includes(s: string, t: string)
    decreases |s|
  {
    IsPrefix(t, s) || (|s| > 0 && Includes(s[1..], t))
  }

  /** `Includes` holds exactly when `t` occurs somewhere in `s`; the empty string occurs everywhere. */
  lemma {:induction false} IncludesIff(s: string, t: string)
    ensures Includes(s, t) <==> exists i :: OccursAt(s, t, i)
    decreases |s|
  {
    if Includes(s, t) {
      if IsPrefix(t, s) {
        assert OccursAt(s, t, 0);
      } else {
        IncludesIff(s[1..], t);
        var i :| OccursAt(s[1..], t, i);
        assert s[1..][i..i + |t|] == s[i + 1..i + 1 + |t|];
        assert OccursAt(s, t, i + 1);
      }
    } else {
      forall i | 0 <= i
        ensures !OccursAt(s, t, i)
      {
        if i > 0 && |s| > 0 && i + |t| <= |s| {
          assert s[1..][i - 1..i - 1 + |t|] == s[i..i + |t|];
          assert OccursAt(s, t, i) ==> OccursAt(s[1..], t, i - 1);
          IncludesIff(s[1..], t);
        }
      }
    }
  }

  /** A term whose first character does not occur in `s` is not included in `s`. */
  lemma {:induction false} NotIncludedWithoutFirstChar(s: string, t: string)
    requires |t| > 0
    requires forall i :: 0 <= i < |s| ==> s[i] != t[0]
    ensures !Includes(s, t)
    decreases |s|
  {
    if |s| > 0 {
      if |t| <= |s| {
        assert s[..|t|][0] == s[0];
      }
      NotIncludedWithoutFirstChar(s[1..], t);
    }
  }

  /** A character that stands for any run of characters in an `ilike` pattern (`*` is the REST layer's alias for `%`). */
  predicate IsRunWildcard(c: char) {
    c == '%' || c == '*'
  }

  /** The characters with a special meaning in an `ilike` pattern, including the escape character. */
  predicate IsPatternChar(c: char) {
    IsRunWildcard(c) || c == '_' || c == '\\'
  }

  /** A search term in which no character has a pattern meaning. */
  predicate PlainTerm(t: string) {
    forall i :: 0 <= i < |t| ==> !IsPatternChar(t[i])
  }

  /** SQL `LIKE` matching of the whole of `s` against pattern `p`: a run wildcard matches any run, `_` any one character. */
  predicate LikeMatch(p: string, s: string)
    decreases |p| + |s|
  {
    if |p| == 0 then |s| == 0
    else if IsRunWildcard(p[0]) then LikeMatch(p[1..], s) || (|s| > 0 && LikeMatch(p, s[1..]))
    else |s| > 0 && (p[0] == '_' || p[0] == s[0]) && LikeMatch(p[1..], s[1..])
  }

  /** SQL `ILIKE`: `LIKE` after lower-casing both sides. */
  predicate ILike(s: string, p: string) {
    LikeMatch(Lower(p), Lower(s))
  }

  /** A single run wildcard matches every string. */
  lemma {:induction false} LikeRunMatchesAll(s: string)
    ensures LikeMatch("%", s)
    decreases |s|
  {
    if |s| > 0 {
      LikeRunMatchesAll(s[1..]);
    }
  }

  /** For a plain term `t`, the pattern `t%` matches exactly the strings that start with `t`. */
  lemma {:induction false} LikePrefixPattern(t: string, s: string)
    requires PlainTerm(t)
    ensures LikeMatch(t + "%", s) <==> IsPrefix(t, s)
    decreases |t|
  {
    if |t| == 0 {
      assert t + "%" == "%";
      LikeRunMatchesAll(s);
    } else {
      assert (t + "%")[1..] == t[1..] + "%";
      assert !IsRunWildcard(t[0]) && t[0] != '_' by { assert !IsPatternChar(t[0]); }
      if |s| > 0 && t[0] == s[0] {
        LikePrefixPattern(t[1..], s[1..]);
        if IsPrefix(t[1..], s[1..]) {
          assert s[..|t|] == [s[0]] + s[1..][..|t| - 1];
          assert t == [t[0]] + t[1..];
        }
        if IsPrefix(t, s) {
          assert s[1..][..|t| - 1] == s[..|t|][1..];
        }
      }
    }
  }

  /** For a plain term `t`, the pattern `%t%` matches exactly the strings that include `t`. */
  lemma {:induction false} LikeContainsPattern(t: string, s: string)
    requires PlainTerm(t)
    ensures LikeMatch("%" + t + "%", s) <==> Includes(s, t)
    decreases |s|
  {
    var p := "%" + t + "%";
    assert p[1..] == t + "%";
    LikePrefixPattern(t, s);
    if |s| > 0 {
      LikeContainsPattern(t, s[1..]);
    }
  }

  lemma LowerKeepsPlain(t: string)
    requires PlainTerm(t)
    ensures PlainTerm(Lower(t))
  {
  }

  /**
   * The database's `ilike` against `%t%` agrees with the browser's
   * lower-cased `includes` whenever the term has no pattern characters.
   */
  lemma {:induction false} ILikeIsCaseInsensitiveIncludes(s: string, t: string)
    requires PlainTerm(t)
    ensures ILike(s, "%" + t + "%") <==> Includes(Lower(s), Lower(t))
  {
    LowerAppend("%" + t, "%");
    LowerAppend("%", t);
    assert Lower("%") == "%";
    LowerKeepsPlain(t);
    LikeContainsPattern(Lower(t), Lower(s));
  }

  /** Lower-casing never produces an underscore from another character. */
  lemma LowerKeepsNoUnderscore(name: string)
    requires forall i :: 0 <= i < |name| ==> name[i] != '_'
    ensures forall i :: 0 <= i < |Lower(name)| ==> Lower(name)[i] != '_'
  {
  }

  /** Spliced into `%t%` unescaped, the term `_` matches every non-empty name in `ilike`. */
  lemma UnderscoreMatchesAnyNonEmpty(name: string)
    requires |name| > 0
    ensures ILike(name, "%_%")
  {
    var s := Lower(name);
    assert Lower("%_%") == "%_%" by {
      assert "%_%" == ['%'] + "_%";
      assert "_%" == ['_'] + "%";
    }
    assert LikeMatch("_%", s) by {
      assert "_%"[1..] == "%";
      LikeRunMatchesAll(s[1..]);
    }
    assert LikeMatch("%_%", s) by {
      assert "%_%"[1..] == "_%";
    }
  }

  /**
   * With a pattern character in the term the two disagree: `ilike` matches
   * the term `_` against any non-empty name, but `includes` reads it
   * literally and rejects every name without an underscore.
   */
  lemma UnderscoreTermDiverges(name: string)
    requires |name| > 0
    requires forall i :: 0 <= i < |name| ==> name[i] != '_'
    ensures ILike(name, "%_%")
    ensures !Includes(Lower(name), "_")
  {
    UnderscoreMatchesAnyNonEmpty(name);
    LowerKeepsNoUnderscore(name);
    NoOccurrence(Lower(name), '_');
    IncludesIff(Lower(name), "_");
  }

  /** A one-character string occurs only where that character does. */
  lemma NoOccurrence(s: string, c: char)
    requires forall i :: 0 <= i < |s| ==> s[i] != c
    ensures forall i :: !OccursAt(s, [c], i)
  {
    forall i
      ensures !OccursAt(s, [c], i)
    {
      if 0 <= i < |s| {
        assert s[i..i + 1] == [s[i]];
      }
    }
  }
}

=== FILE: validation.dfy ===
/**
 * The request models of the backend: which bodies are accepted, and the
 * defaults filled in. A body that breaks a constraint is answered with 422.
 */
module Validation {
  import opened Wrappers
  import opened Sweets

  /** The shortest password a registration accepts. */
  const MinPasswordLength := 6

  /** A registration body; `fullName` is absent when not sent. */
  datatype RegistrationForm = RegistrationForm(email: string, password: string, fullName: Option<string>)

  /** An accepted registration. */
  datatype Registration = Registration(email: string, password: string, fullName: string)

  /** Validate a registration: the password needs at least six characters; the full name defaults to empty. */
  function ValidateRegistration(f: RegistrationForm): (r: Result<Registration, Error>)
    ensures r.Success? <==> |f.password| >= MinPasswordLength
    ensures r.Success? ==> r.value.email == f.email && r.value.password == f.password
    ensures r.Success? ==> r.value.fullName == f.fullName.GetOr("")
    ensures r.Failure? ==> r.error.Status() == 422
  {
    if |f.password| < MinPasswordLength then Failure(Unprocessable)
    else Success(Registration(f.email, f.password, f.fullName.GetOr("")))
  }

  /** A three-character password is refused with 422. */
  lemma ShortPasswordRejected()
    ensures ValidateRegistration(RegistrationForm("test@example.com", "123", Some("Test User"))) == Failure(Unprocessable)
  {
  }

  /** A body creating a sweet; absent fields were not sent. */
  datatype SweetForm = SweetForm(
    name: Option<string>,
    description: Option<string>,
    category: Option<string>,
    price: Option<real>,
    quantity: Option<int>,
    imageUrl: Option<string>)

  /** Validate a new sweet: name, category, price and stock are required, and the optional text fields default to empty. */
  function ValidateSweetCreate(f: SweetForm): (r: Result<Sweet, Error>)
    ensures r.Success? <==>
      && f.name.Some? && |f.name.value| >= 1
      && f.category.Some? && |f.category.value| >= 1
      && f.price.Some? && f.price.value >= 0.0
      && f.quantity.Some? && f.quantity.value >= 0
    ensures r.Success? ==> ValidSweet(r.value)
    ensures r.Success? ==>
      && r.value.name == f.name.value && r.value.category == f.category.value
      && r.value.price == f.price.value && r.value.quantity == f.quantity.value
      && r.value.description == f.description.GetOr("") && r.value.imageUrl == f.imageUrl.GetOr("")
    ensures r.Failure? ==> r.error == Unprocessable
  {
    match (f.name, f.category, f.price, f.quantity)
    case (Some(name), Some(category), Some(price), Some(quantity)) =>
      if |name| >= 1 && |category| >= 1 && price >= 0.0 && quantity >= 0 then
        Success(Sweet(name, f.description.GetOr(""), category, price, quantity, f.imageUrl.GetOr("")))
      else Failure(Unprocessable)
    case _ => Failure(Unprocessable)
  }

  /** Validate the quantity of a purchase or restock request: it must be positive. */
  function ValidateQuantity(quantity: int): (r: Result<nat, Error>)
    ensures r.Success? <==> quantity > 0
    ensures r.Success? ==> r.value == quantity && r.value >= 1
    ensures r.Failure? ==> r.error.Status() == 422
  {
    if quantity > 0 then Success(quantity) else Failure(Unprocessable)
  }

  /** Validate a partial update: every field is optional and none is constrained. */
  function ValidateUpdate(p: Patch): Result<Patch, Error> {
    Success(p)
  }

  /** The update model lets a negative stock through, unlike the create model. */
  lemma UpdateAdmitsNegativeStock(s: Sweet)
    ensures ValidateUpdate(QuantityPatch(-1)).Success?
    ensures !ValidSweet(ApplyPatch(s, ValidateUpdate(QuantityPatch(-1)).value))
  {
  }
}

=== FILE: wrappers.dfy ===
/** Optional values and results with an error, as the rest of the model uses them. */
module Wrappers {

  /** An optional value: an absent query parameter, an unset form field, a missing row. */
  datatype Option<+T> = None | Some(value: T) {

    /** The value, or `default` when absent. */
    function GetOr(default: T): T {
      match this
      case Some(v) => v
      case None => default
    }
  }

  /** A value, or the error that replaced it. */
  datatype Result<+T, +E> = Success(value: T) | Failure(error: E)
}
